=== FILE: README.md ===
# jsfparser stub generator — a Dafny model of `changeMethods`

The jsfparser tool turns the JSF implementation sources into a compile-only API.
Each parsed Java compilation unit is rewritten so that only its public/protected
surface is left, and every executable body is replaced by a statement that always
throws. This project models that syntax-tree rewrite as pure functions over
immutable datatypes, and proves what it guarantees about its output.

The rewrite has four parts, all in `changeMethods` of
`src/main/java/eu/ggam/jsfparser/App.java`:

- **Import pruning** (`Imports`). An import is dropped when its qualified name starts
  with `com.sun.` or with one of four `javax.faces…` helper-class names.
- **Type gate** (`Stubber.StubType`). A class or interface that is neither `public`
  nor `protected` is dropped together with everything nested in it. An interface
  keeps its own members untouched, but its nested types are still visited. Enum
  and annotation declarations (`OtherType`) are never gated; their nested class
  and interface declarations are visited too.
- **Member policy** (`Policy.ShouldRemove`). Inside a class, a fixed table decides
  which fields, methods and constructors are removed.
- **Erasure** (`Erasure`). A kept non-abstract method gets the single statement
  `throw new java.lang.UnsupportedOperationException("This is API for compile only
  purposes.")`. A kept non-abstract constructor gets the same body. The one
  exception is a constructor whose first statement is `this(...)`/`super(...)`
  when the class has no no-argument constructor, or when this constructor is the
  no-argument one. That invocation is kept in front of the throw, with its
  arguments rewritten: a simple name `x` becomes `(T) null`, anything else `null`.

`Stubber.ChangeMethods` returns the rewritten unit and the flag that decides
whether a stub file is written: some type declaration is left.

Module layout: `Syntax` (the tree), `Seqs` (order-preserving filter),
`Imports`, `Policy`, `Erasure`, `Stubber` (the visitor), `StubProjections` and
`StubForm` (properties of the whole pass), and `Scenarios` (concrete inputs).

The symbol resolution that "always fails" is modelled as a parameter
`reported: string -> string`. It maps the spelling of a simple name to the
unqualified type name placed in its `(T) null`. In the source that name comes from
resolving the name in its scope, so this is an abstraction (see "## Left out").

**Behaviour worth knowing.** Running the generator again on its own output is
*not* a no-op. A kept `super((Foo) null)` is a cast expression, not a simple name,
so a second run turns it into `super(null)` (`Scenarios.SecondRunDropsTypedNull`).
From the second run on, the output is stable (`StubForm.StableAfterTwoRuns`).
A type's survival depends only on its own modifiers: a public class whose members
are all removed is still emitted, with an empty body
(`Scenarios.EmissionFollowsTypeGate`). The gate reads only declared modifiers,
so a type nested in an interface without an explicit `public` is dropped, even
though Java makes it implicitly public (`Scenarios.InterfaceNestedTypeNeedsExplicitPublic`).

## Model

| member | source | states |
|---|---|---|
| Imports.StartsWith | src/main/java/eu/ggam/jsfparser/App.java:90-94 | the character-by-character `startsWith` test holds exactly when the prefix is a prefix of the name |
| Imports.PruneImports | src/main/java/eu/ggam/jsfparser/App.java:87-99 | an import survives iff its name starts with none of the five denied prefixes; survivors keep their relative order and are unchanged, each with its original multiplicity |
| Imports.PruneImportsIdempotent | src/main/java/eu/ggam/jsfparser/App.java:87-99 | pruning an already pruned import list removes nothing more |
| Imports.DeniedExamples | src/main/java/eu/ggam/jsfparser/App.java:90-94 | the prefixes are raw string prefixes: `com.sun.faces…`, `…SharedUtilsImpl` and `…MessageFactory.getMessage` are all dropped |
| Imports.BareComSunKept | src/main/java/eu/ggam/jsfparser/App.java:90 | an import of the bare name `com.sun` is kept, since the prefix needs its trailing dot |
| Imports.ComSunNeedsTheDot | src/main/java/eu/ggam/jsfparser/App.java:90 | `com.sunny.Widget` is kept: sharing the letters `com.sun` is not enough |
| Imports.PublicApiImportKept | src/main/java/eu/ggam/jsfparser/App.java:90-94 | an import of the public API (`javax.faces.validator.Validator`) is kept |
| Policy.ShouldRemove | src/main/java/eu/ggam/jsfparser/App.java:184-208 | a field is removed iff it has none of public/protected/static; a method iff neither public nor protected; a constructor iff none of public/protected/private; nested types and other members never |
| Erasure.SanitizeArg | src/main/java/eu/ggam/jsfparser/App.java:143-157 | every rewritten argument is a placeholder; it is a typed null exactly when the argument was a simple name, typed with the name resolution reports for it |
| Erasure.SanitizeArgs | src/main/java/eu/ggam/jsfparser/App.java:138-160 | argument count and order are kept, each argument is rewritten on its own, and no simple name survives |
| Erasure.SanitizePlaceholders | src/main/java/eu/ggam/jsfparser/App.java:144-146 | rewriting placeholders yields plain `null`s only: a typed null is not a simple name |
| Erasure.EraseMethod | src/main/java/eu/ggam/jsfparser/App.java:120-125 | a method keeps modifiers, name and parameters; a non-abstract one gets exactly the one-statement failure block, an abstract one is unchanged |
| Erasure.EraseMethodIdempotent | src/main/java/eu/ggam/jsfparser/App.java:120-125 | erasing an erased method changes nothing |
| Erasure.DefaultConstructor | src/main/java/eu/ggam/jsfparser/App.java:135 | `getDefaultConstructor()` finds a constructor exactly when the member list holds a constructor without parameters, and then returns the first one in declaration order |
| Erasure.DefaultConstructorDecision | src/main/java/eu/ggam/jsfparser/App.java:135 | the source's test "no default constructor, or it equals this one" implies the model's "no no-argument constructor, or this one takes no parameters", and the converse holds when the class has at most one no-argument constructor |
| Erasure.EraseMember | src/main/java/eu/ggam/jsfparser/App.java:119-171 | a kept field comes back unchanged; a kept method or constructor keeps modifiers, name and parameters; a non-abstract method's body becomes the one-statement failure block; a non-abstract constructor's block becomes the failure block, behind its explicit invocation with sanitised arguments exactly when the preservation rule holds; abstract members are unchanged |
| Erasure.EraseConstructor | src/main/java/eu/ggam/jsfparser/App.java:127-171 | a non-abstract constructor's body ends in the failure statement with at most one statement before it; that statement is present iff the first statement was an explicit invocation and the class has no no-arg constructor or this is it; it keeps the invocation's kind and qualifier and sanitises its arguments; abstract constructors are unchanged |
| Stubber.StubType | src/main/java/eu/ggam/jsfparser/App.java:102-110 | a declaration is dropped iff it is a class or interface with neither public nor protected; a kept one keeps kind, modifiers and name, only its members change |
| Stubber.StubMember | src/main/java/eu/ggam/jsfparser/App.java:114-118 | in a class a non-type member is dropped iff the table says so; in other bodies it is kept as is; a nested type survives iff it passes the gate |
| Stubber.StubTypes | src/main/java/eu/ggam/jsfparser/App.java:102-105 | every surviving declaration passes the gate, and some survive iff some input declaration passes it |
| StubProjections.StubTypesGatedMap | src/main/java/eu/ggam/jsfparser/App.java:102-110 | the rewritten type list is exactly the declarations that pass the gate, in input order, each rewritten by the type visitor: every passing declaration is kept, not only some |
| StubProjections.StubMembersGatedMap | src/main/java/eu/ggam/jsfparser/App.java:112-118 | the rewritten member list is exactly the members that survive the member rule, in input order and with fields, methods, constructors and nested types interleaved as before, each replaced by its rewrite |
| Stubber.ChangeMethods | src/main/java/eu/ggam/jsfparser/App.java:84-181 | package kept, imports pruned, types rewritten; the returned flag is true iff the rewritten type list is non-empty, iff some top-level declaration of the input passes the gate |
| StubProjections.ClassMembersTwoStage | src/main/java/eu/ggam/jsfparser/App.java:112-174 | on fields, methods and constructors, the one-pass class rewrite equals the source's two stages: keep the members the table allows, in order, and erase each |
| StubProjections.ClassBodyRewrite | src/main/java/eu/ggam/jsfparser/App.java:111-176 | a visible class survives; its fields, methods and constructors are those the table keeps, in order, each erased with the no-argument test read on the class's member list before removal (`getDefaultConstructor()` at :135 runs before `removeAll` at :174); its nested declarations are rewritten as a type list |
| StubProjections.PassthroughKeepsMembers | src/main/java/eu/ggam/jsfparser/App.java:107-110 | in interface, enum and annotation bodies every non-type member comes back unchanged and in order |
| StubProjections.NestedTypesLikeTopLevel | src/main/java/eu/ggam/jsfparser/App.java:176 | the nested type declarations of any body are rewritten exactly as a top-level type list is |
| StubProjections.InterfacePassthrough | src/main/java/eu/ggam/jsfparser/App.java:107-110 | a visible interface survives and its own members and bodies are returned unchanged |
| StubForm.HasDefaultShrinks | src/main/java/eu/ggam/jsfparser/App.java:135 | removing members never creates a no-argument constructor |
| StubForm.StubOutputForm | src/main/java/eu/ggam/jsfparser/App.java:84-182 | after one run, no denied import is left, and at every depth every class/interface is visible and, in every class body, every member passes the table, every concrete method body is the failure block and every concrete constructor body is the failure block, at most behind an invocation with placeholder arguments that the preservation rule allows; members of interface, enum and annotation bodies keep their bodies |
| StubForm.SecondRunSettles | src/main/java/eu/ggam/jsfparser/App.java:138-160 | a second run over such a stub leaves only plain `null` placeholders |
| StubForm.SettledUnitFixed | src/main/java/eu/ggam/jsfparser/App.java:84-182 | a stub with only plain `null` placeholders is a fixed point of the generator |
| StubForm.StableAfterTwoRuns | src/main/java/eu/ggam/jsfparser/App.java:84-182 | for every input, a third run reproduces the second run's unit and flag |
| Scenarios.DefaultConstructorKeepsDelegation | src/main/java/eu/ggam/jsfparser/App.java:133-170 | `C()` keeps `super((T) null)` before the throw; `C(int y)` with `this(y)` becomes only the throw, as a no-arg constructor exists |
| Scenarios.ArgumentSanitisation | src/main/java/eu/ggam/jsfparser/App.java:143-157 | `super(someUnresolvedVar)` becomes `super((Foo) null)` and `super("literal")` becomes `super(null)` |
| Scenarios.FieldRetentionBoundary | src/main/java/eu/ggam/jsfparser/App.java:186-192 | `private static final int X` and `protected Object z` are kept, `private int y` is dropped |
| Scenarios.EmissionFollowsTypeGate | src/main/java/eu/ggam/jsfparser/App.java:102-105 | a public class with only removable members is emitted with an empty body; the same class without public/protected is not emitted |
| Scenarios.DroppedDefaultStillCounts | src/main/java/eu/ggam/jsfparser/App.java:135 | a package-private `C()`, itself removed, still makes `public C(Foo x)` lose its `super(x)` |
| Scenarios.InterfaceNestedTypeNeedsExplicitPublic | src/main/java/eu/ggam/jsfparser/App.java:103 | a type nested in a public interface without an explicit `public` is dropped; the interface's method is kept |
| Scenarios.SecondRunDropsTypedNull | src/main/java/eu/ggam/jsfparser/App.java:144-153 | re-running on the output turns `super((Foo) null)` into `super(null)`, so the generator is not idempotent |

## Left out

- `main` (App.java:47-82): directory walking, path and extension filtering, the `package-info.java` skip, reading, writing and directory creation, and wrapping `IOException`. Only the flag that `main` tests before writing is modelled.
- Parser and symbol-solver configuration (App.java:51-56) belong to a foreign library. The failing resolution is the `reported` parameter. The source resolves the name to its declaration and asks for that declaration's type (App.java:149); with only an empty `CombinedTypeSolver` installed (App.java:53-55), looking up a class type throws, and the exception carries the unqualified class name (App.java:151-153). The model takes that lookup to always throw, with `reported` giving the name. The branch where `getType()` returns normally, so that the source throws `RuntimeException("This cannot be reached")` (App.java:155) and the run aborts, is not modelled.
- Erasure.SanitizeArg: for an argument whose declaration has a primitive type, the model and the source differ. In `public C(int n) { super(n); }`, in a class without a no-argument constructor, `getType()` of `n` can return `int` without throwing, and the source then aborts at App.java:155. The model instead produces `super((T) null)` with `T = reported("n")`.
- Printing the tree back to text. The source builds its placeholders as name nodes holding the text `null` and `(T) null`. The model uses the `NullLit` and `CastNull` expressions, which are what that text parses back to.
- The visitor's generic descent into statements and expressions. Local classes inside method bodies, anonymous class bodies, and class bodies of enum constants are not visited by the model; they are opaque text.
- Comments, annotations, type parameters, extends/implements clauses, return types, throws clauses, field initialisers and enum constants are not represented, because the rewrite never reads or changes them. Other statements, expressions and members are kept as uninterpreted text that the rewrite copies.
- Two no-argument constructors in one class (not valid Java): the source compares constructors with structural `equals`, while the model takes "is the default constructor" to mean "has no parameters".
- `removeAll` (App.java:174) removes by structural equality, which also requires the same node kind. A kept member and a removed member of the same kind always differ in modifiers, so it behaves as the order-preserving filter the model uses.
- Erasure.SanitizeArg: the type written into `(T) null` is `reported(x)`, a function of the identifier's spelling alone, so one spelling gets one type across a unit. The source takes it from resolving `x` in its scope (App.java:149-153), so two constructors whose parameters share a name but not a type (`C(Foo x) { super(x); }`, `C(Bar x) { this(x, 1); }`) get `(Foo) null` and `(Bar) null` there, but the same type in the model.

=== FILE: erasure.dfy ===
/** Body erasure: the failure stub that replaces method bodies, and the constructor
    rewrite that may keep a sanitised `this(...)`/`super(...)` call in front of it. */
module Erasure {
  import opened Syntax

  const FailureMessage := "This is API for compile only purposes."
  const UnsupportedOperation := "java.lang.UnsupportedOperationException"

  /** `throw new java.lang.UnsupportedOperationException("This is API for compile
      only purposes.");` — the one statement of every erased body. */
  const FailureStmt: Stmt := ThrowNew(UnsupportedOperation, [StringLit(FailureMessage)])

  /** The block `getBlock` builds. */
  const FailureBlock: seq<Stmt> := [FailureStmt]

  /** The placeholders sanitisation produces: an untyped or a typed `null`. */
  predicate IsPlaceholder(e: Expr) {
    e.NullLit? || e.CastNull?
  }

  /** One argument of a kept constructor invocation. A simple name `x` becomes
      `(T) null`, where `T` is the unqualified name the failing symbol resolution
      reports for `x` (the `reported` parameter); anything else becomes `null`. */
  function SanitizeArg(e: Expr, reported: string -> string): (r: Expr)
    ensures IsPlaceholder(r)
    ensures r.CastNull? <==> e.NameRef?
    ensures e.NameRef? ==> r.typeName == reported(e.id)
  {
    if !e.NameRef? then NullLit else CastNull(reported(e.id))
  }

  /** All arguments, rewritten one by one: same number, same order, and no simple
      name is left to refer to a variable of the erased body. */
  function SanitizeArgs(args: seq<Expr>, reported: string -> string): (r: seq<Expr>)
    ensures |r| == |args|
    ensures forall k :: 0 <= k < |args| ==> r[k] == SanitizeArg(args[k], reported)
    ensures forall k :: 0 <= k < |r| ==> IsPlaceholder(r[k])
  {
    if args == [] then []
    else [SanitizeArg(args[0], reported)] + SanitizeArgs(args[1..], reported)
  }

  /** Sanitising placeholders turns every typed `null` into a plain `null`:
      a cast is not a simple name. */
  lemma SanitizePlaceholders(args: seq<Expr>, reported: string -> string)
    requires forall k :: 0 <= k < |args| ==> IsPlaceholder(args[k])
    ensures SanitizeArgs(args, reported) == seq(|args|, k => NullLit)
  {
  }

  /** A constructor that takes no parameters. */
  predicate IsNoArgConstructor(m: Member) {
    m.Constructor? && |m.params| == 0
  }

  /** The class declares a no-argument constructor (`getDefaultConstructor()`
      is present). */
  predicate HasDefaultConstructor(members: seq<Member>) {
    exists k :: 0 <= k < |members| && IsNoArgConstructor(members[k])
  }

  /** Position `k` holds the first no-argument constructor of the list. */
  predicate FirstNoArgConstructorAt(members: seq<Member>, k: int)
    requires 0 <= k < |members|
  {
    IsNoArgConstructor(members[k]) && forall j :: 0 <= j < k ==> !IsNoArgConstructor(members[j])
  }

  /** `getDefaultConstructor()`: the first member of the list that is a constructor
      without parameters, if there is one. */
  function DefaultConstructor(members: seq<Member>): (r: Option<Member>)
    ensures r.Some? <==> HasDefaultConstructor(members)
    ensures r.Some? ==>
      exists k :: 0 <= k < |members| && members[k] == r.value && FirstNoArgConstructorAt(members, k)
  {
    if members == [] then None
    else if IsNoArgConstructor(members[0]) then
      assert FirstNoArgConstructorAt(members, 0);
      Some(members[0])
    else
      var r := DefaultConstructor(members[1..]);
      assert HasDefaultConstructor(members) ==> HasDefaultConstructor(members[1..]) by {
        if HasDefaultConstructor(members) {
          var k :| 0 <= k < |members| && IsNoArgConstructor(members[k]);
          assert members[1..][k - 1] == members[k];
        }
      }
      assert r.Some? ==>
        exists k :: 0 <= k < |members| && members[k] == r.value && FirstNoArgConstructorAt(members, k) by {
        if r.Some? {
          var k :| 0 <= k < |members| - 1 && members[1..][k] == r.value
            && FirstNoArgConstructorAt(members[1..], k);
          assert members[k + 1] == r.value;
          forall j | 0 <= j < k + 1 ensures !IsNoArgConstructor(members[j]) {
            if j > 0 {
              assert members[j] == members[1..][j - 1];
            }
          }
          assert FirstNoArgConstructorAt(members, k + 1);
        }
      }
      r
  }

  /** At most one member of the list is a constructor without parameters, as in
      any class that compiles. */
  predicate UniqueNoArgConstructor(members: seq<Member>) {
    forall i, j :: 0 <= i < j < |members| ==> !(IsNoArgConstructor(members[i]) && IsNoArgConstructor(members[j]))
  }

  /** The test of the explicit-invocation rule, `getDefaultConstructor()` absent or
      equal to this constructor, agrees with the model's test "no no-argument
      constructor, or this one takes no parameters". The first direction holds for
      every list; the second needs the no-argument constructor to be unique, since
      two of them would be compared by structure. */
  lemma DefaultConstructorDecision(members: seq<Member>, k: int)
    requires 0 <= k < |members| && members[k].Constructor?
    ensures (DefaultConstructor(members).None? || DefaultConstructor(members).value == members[k])
        ==> (!HasDefaultConstructor(members) || |members[k].params| == 0)
    ensures UniqueNoArgConstructor(members) && (!HasDefaultConstructor(members) || |members[k].params| == 0)
        ==> (DefaultConstructor(members).None? || DefaultConstructor(members).value == members[k])
  {
    var d := DefaultConstructor(members);
    if d.Some? {
      var j :| 0 <= j < |members| && members[j] == d.value && FirstNoArgConstructorAt(members, j);
      if UniqueNoArgConstructor(members) && |members[k].params| == 0 {
        assert IsNoArgConstructor(members[k]) && IsNoArgConstructor(members[j]);
        assert j == k;
      }
    }
  }

  /** A method keeps its modifiers, name and parameters; when it is not abstract its
      body becomes the failure block, whatever it was (even none, for a native
      method); an abstract method is left exactly as it was. */
  function EraseMethod(m: Member): (r: Member)
    requires m.Method?
    ensures r.Method? && r.mods == m.mods && r.name == m.name && r.params == m.params
    ensures IsAbstract(m) ==> r == m
    ensures !IsAbstract(m) ==> r.body == Some(FailureBlock)
  {
    if IsAbstract(m) then m else m.(body := Some(FailureBlock))
  }

  /** Erasing an erased method changes nothing. */
  lemma EraseMethodIdempotent(m: Member)
    requires m.Method?
    ensures EraseMethod(EraseMethod(m)) == EraseMethod(m)
  {
  }

  /** The constructor's first statement is an explicit invocation that is worth
      keeping: the class has no no-argument constructor, or this constructor is it. */
  predicate KeepsInvocation(c: Member, hasDefault: bool)
    requires c.Constructor?
  {
    |c.block| > 0 && c.block[0].Invocation? && (!hasDefault || |c.params| == 0)
  }

  /** A non-abstract constructor's new body ends in the failure statement and holds
      at most one statement before it: the original explicit invocation, of the same
      kind and qualifier, with its arguments sanitised — present exactly when
      `KeepsInvocation` holds. `hasDefault` is judged on the member list before
      any member is removed. */
  function EraseConstructor(c: Member, hasDefault: bool, reported: string -> string): (r: Member)
    requires c.Constructor?
    ensures r.Constructor? && r.mods == c.mods && r.name == c.name && r.params == c.params
    ensures IsAbstract(c) ==> r == c
    ensures !IsAbstract(c) ==> 1 <= |r.block| <= 2 && r.block[|r.block| - 1] == FailureStmt
    ensures !IsAbstract(c) ==> (|r.block| == 2 <==> KeepsInvocation(c, hasDefault))
    ensures !IsAbstract(c) && |r.block| == 2 ==>
      && r.block[0].Invocation?
      && r.block[0].kind == c.block[0].kind
      && r.block[0].qualifier == c.block[0].qualifier
      && r.block[0].args == SanitizeArgs(c.block[0].args, reported)
  {
    if IsAbstract(c) then c
    else
      var statements := c.block;
      if |statements| > 0 && statements[0].Invocation? && (!hasDefault || |c.params| == 0) then
        var invocation := statements[0];
        c.(block := [invocation.(args := SanitizeArgs(invocation.args, reported))] + FailureBlock)
      else
        c.(block := FailureBlock)
  }

  /** The per-member rewrite applied to every member a class keeps: a field (or any
      other member) is untouched; a method or constructor keeps its modifiers, name
      and parameters, and unless abstract its body becomes the failure block, for a
      constructor behind its sanitised explicit invocation when that is kept. */
  function EraseMember(m: Member, hasDefault: bool, reported: string -> string): (r: Member)
    ensures !m.Method? && !m.Constructor? ==> r == m
    ensures m.Method? ==>
      && r.Method? && r.mods == m.mods && r.name == m.name && r.params == m.params
      && r.body == (if IsAbstract(m) then m.body else Some(FailureBlock))
    ensures m.Constructor? ==>
      && r.Constructor? && r.mods == m.mods && r.name == m.name && r.params == m.params
      && (IsAbstract(m) ==> r == m)
      && (!IsAbstract(m) ==>
            r.block == if KeepsInvocation(m, hasDefault)
                       then [m.block[0].(args := SanitizeArgs(m.block[0].args, reported))] + FailureBlock
                       else FailureBlock)
  {
    match m
    case Method(_, _, _, _) => EraseMethod(m)
    case Constructor(_, _, _, _) => EraseConstructor(m, hasDefault, reported)
    case _ => m
  }
}

=== FILE: imports.dfy ===
/** Import pruning: imports of implementation-only namespaces are dropped. */
module Imports {
  import opened Syntax
  import opened Seqs

  /** Java's `String.startsWith`, compared character by character. */
  function StartsWith(s: string, prefix: string): (r: bool)
    ensures r <==> prefix <= s
  {
    if prefix == [] then true
    else if s == [] then false
    else s[0] == prefix[0] && StartsWith(s[1..], prefix[1..])
  }

  /** The five fixed prefixes. They are raw string prefixes, not package boundaries:
      only the first ends in a dot. */
  const DenyList: seq<string> := [
    "com.sun.",
    "javax.faces.validator.MultiFieldValidationUtils",
    "javax.faces.ServletContextFacesContextFactory",
    "javax.faces.validator.MessageFactory",
    "javax.faces.application.SharedUtils"
  ]

  predicate IsDenied(name: string) {
    exists k :: 0 <= k < |DenyList| && StartsWith(name, DenyList[k])
  }

  /** The import visitor: an import whose qualified name starts with a denied prefix
      is removed; every other import is kept as it is, in its original order. */
  function PruneImports(imports: seq<Import>): (r: seq<Import>)
    ensures IsSubsequence(r, imports)
    ensures forall i :: i in r <==> i in imports && !IsDenied(i.name)
    ensures forall i :: multiset(r)[i] == if IsDenied(i.name) then 0 else multiset(imports)[i]
  {
    Filter(imports, (i: Import) => !IsDenied(i.name))
  }

  /** Pruning an already pruned list changes nothing. */
  lemma PruneImportsIdempotent(imports: seq<Import>)
    ensures PruneImports(PruneImports(imports)) == PruneImports(imports)
  {
    FilterIdempotent(imports, (i: Import) => !IsDenied(i.name));
  }

  /** A prefix is ruled out by one position where it and the name disagree. */
  lemma MismatchIsNotPrefix(name: string, prefix: string, j: nat)
    requires j < |prefix| && j < |name| && name[j] != prefix[j]
    ensures !StartsWith(name, prefix)
  {
  }

  /** The prefixes are raw string prefixes: any name extending a helper class name
      is dropped, whether or not a package boundary follows. */
  lemma DeniedExamples()
    ensures IsDenied("com.sun." + "faces.util.Util")
    ensures IsDenied("javax.faces.application.SharedUtils" + "Impl")
    ensures IsDenied("javax.faces.validator.MessageFactory" + ".getMessage")
  {
    assert StartsWith("com.sun." + "faces.util.Util", DenyList[0]);
    assert StartsWith("javax.faces.application.SharedUtils" + "Impl", DenyList[4]);
    assert StartsWith("javax.faces.validator.MessageFactory" + ".getMessage", DenyList[3]);
  }

  /** `com.sun.` needs its trailing dot: the bare package name is kept ... */
  lemma BareComSunKept()
    ensures !IsDenied("com.sun")
  {
  }

  /** ... and so is a package that merely begins with the same letters. */
  lemma ComSunNeedsTheDot()
    ensures !IsDenied("com.sunny.Widget")
  {
    forall k | 0 <= k < |DenyList|
      ensures !StartsWith("com.sunny.Widget", DenyList[k])
    {
      if k == 0 {
        MismatchIsNotPrefix("com.sunny.Widget", DenyList[0], 7);
      } else {
        assert |DenyList[k]| > |"com.sunny.Widget"|;
      }
    }
  }

  /** The public JSF packages are kept. */
  lemma PublicApiImportKept()
    ensures !IsDenied("javax.faces.validator.Validator")
  {
    forall k | 0 <= k < |DenyList|
      ensures !StartsWith("javax.faces.validator.Validator", DenyList[k])
    {
      if k == 0 {
        MismatchIsNotPrefix("javax.faces.validator.Validator", DenyList[0], 7);
      } else {
        assert |DenyList[k]| > |"javax.faces.validator.Validator"|;
      }
    }
  }
}

=== FILE: policy.dfy ===
/** Visibility decisions: the gate on class/interface declarations and the
    member-removal table applied inside class bodies (`shouldRemove`). */
module Policy {
  import opened Syntax

  /** A class or interface is part of the public surface only when it is
      declared `public` or `protected`; nothing else about it is consulted. */
  predicate IsVisible(mods: set<Modifier>) {
    Public in mods || Protected in mods
  }

  /** Whether a class member is dropped. Fields survive when public, protected or
      static (a private static constant may still be referenced by kept code);
      methods only when public or protected; constructors when public, protected or
      private (a private constructor may back a kept factory). Nested types,
      initializers and other members are never dropped by this test. */
  function ShouldRemove(m: Member): (r: bool)
    ensures m.Field? ==> (r <==> m.mods !! {Public, Protected, Static})
    ensures m.Method? ==> (r <==> m.mods !! {Public, Protected})
    ensures m.Constructor? ==> (r <==> m.mods !! {Public, Protected, Private})
    ensures m.NestedType? || m.OtherMember? ==> !r
  {
    match m
    case Field(mods, _) =>
      Public !in mods && Protected !in mods && Static !in mods
    case Method(mods, _, _, _) =>
      Public !in mods && Protected !in mods
    case Constructor(mods, _, _, _) =>
      Public !in mods && Protected !in mods && Private !in mods
    case _ => false
  }
}

=== FILE: scenarios.dfy ===
/** Concrete inputs and the output the model gives for each: the generator's
    intended behaviours, and two edges of its rules. */
module Scenarios {
  import opened Syntax
  import opened Erasure
  import opened Stubber

  /** The member pass over a short literal list, member by member. */
  lemma StubMembersUnrolled(members: seq<Member>, ctx: Context, reported: string -> string)
    requires 1 <= |members| <= 3
    ensures StubMembers(members, ctx, reported)
      == OptionToSeq(StubMember(members[0], ctx, reported))
       + (if |members| > 1 then OptionToSeq(StubMember(members[1], ctx, reported)) else [])
       + (if |members| > 2 then OptionToSeq(StubMember(members[2], ctx, reported)) else [])
  {
    var rest := members[1..];
    if |rest| > 0 {
      var rest2 := rest[1..];
      if |rest2| > 0 {
        assert rest2[1..] == [];
      }
    }
  }

  /** `C()` delegates with `super(x)` and is the no-argument constructor, so the
      call survives with `x` replaced by a typed null; `C(int y)` delegates with
      `this(y)` but a no-argument constructor exists, so its body is only the
      failure statement. */
  lemma DefaultConstructorKeepsDelegation(reported: string -> string)
    ensures
      var noArg := Constructor({Public}, "C", [], [Invocation(SuperCall, None, [NameRef("x")]), OtherStmt("init();")]);
      var oneArg := Constructor({Public}, "C", [Param("int", "y")], [Invocation(ThisCall, None, [NameRef("y")])]);
      StubType(ClassOrInterface({Public}, false, "C", [noArg, oneArg]), reported)
      == Some(ClassOrInterface({Public}, false, "C", [
           Constructor({Public}, "C", [], [Invocation(SuperCall, None, [CastNull(reported("x"))]), FailureStmt]),
           Constructor({Public}, "C", [Param("int", "y")], [FailureStmt])]))
  {
    var noArg := Constructor({Public}, "C", [], [Invocation(SuperCall, None, [NameRef("x")]), OtherStmt("init();")]);
    var oneArg := Constructor({Public}, "C", [Param("int", "y")], [Invocation(ThisCall, None, [NameRef("y")])]);
    var noArg' := Constructor({Public}, "C", [], [Invocation(SuperCall, None, [CastNull(reported("x"))]), FailureStmt]);
    var oneArg' := Constructor({Public}, "C", [Param("int", "y")], [FailureStmt]);
    var members := [noArg, oneArg];
    assert HasDefaultConstructor(members) by {
      assert members[0] == noArg;
    }
    assert SanitizeArgs([NameRef("x")], reported) == [CastNull(reported("x"))];
    assert EraseConstructor(noArg, true, reported) == noArg';
    assert StubMember(noArg, InClass(true), reported) == Some(noArg');
    assert StubMember(oneArg, InClass(true), reported) == Some(oneArg');
    StubMembersUnrolled(members, InClass(true), reported);
    assert StubMembers(members, InClass(true), reported) == [noArg', oneArg'];
  }

  /** `super(someUnresolvedVar)` becomes `super((Foo) null)` when resolution
      reports `Foo`; `super("literal")` becomes `super(null)`. */
  lemma ArgumentSanitisation(reported: string -> string)
    requires reported("someUnresolvedVar") == "Foo"
    ensures
      var ctor := (arg: Expr) => Constructor({Public}, "C", [Param("Foo", "v")], [Invocation(SuperCall, None, [arg])]);
      && EraseConstructor(ctor(NameRef("someUnresolvedVar")), false, reported).block
         == [Invocation(SuperCall, None, [CastNull("Foo")]), FailureStmt]
      && EraseConstructor(ctor(StringLit("literal")), false, reported).block
         == [Invocation(SuperCall, None, [NullLit]), FailureStmt]
  {
    assert SanitizeArgs([NameRef("someUnresolvedVar")], reported) == [CastNull("Foo")];
    assert SanitizeArgs([StringLit("literal")], reported) == [NullLit];
  }

  /** `private static final int X` is kept, `private int y` is dropped and
      `protected Object z` is kept. */
  lemma FieldRetentionBoundary(reported: string -> string)
    ensures
      var x := Field({Private, Static, Final}, ["X"]);
      var y := Field({Private}, ["y"]);
      var z := Field({Protected}, ["z"]);
      StubType(ClassOrInterface({Public}, false, "C", [x, y, z]), reported)
      == Some(ClassOrInterface({Public}, false, "C", [x, z]))
  {
    var x := Field({Private, Static, Final}, ["X"]);
    var y := Field({Private}, ["y"]);
    var z := Field({Protected}, ["z"]);
    var ctx := InClass(HasDefaultConstructor([x, y, z]));
    assert StubMember(x, ctx, reported) == Some(x);
    assert StubMember(y, ctx, reported) == None;
    assert StubMember(z, ctx, reported) == Some(z);
    StubMembersUnrolled([x, y, z], ctx, reported);
    assert StubMembers([x, y, z], ctx, reported) == [x, z];
  }

  /** Survival of a type depends on its own modifiers only: a public class whose
      members are all package-private or private instance fields is still emitted,
      with an empty body, while the same class declared package-private leaves
      nothing to emit. */
  lemma EmissionFollowsTypeGate(reported: string -> string)
    ensures
      var members := [Field({Private}, ["a"]), Field({}, ["b"])];
      var publicUnit := CompilationUnit(None, [], [ClassOrInterface({Public}, false, "C", members)]);
      var hiddenUnit := CompilationUnit(None, [], [ClassOrInterface({Final}, false, "C", members)]);
      && ChangeMethods(publicUnit, reported)
         == Outcome(CompilationUnit(None, [], [ClassOrInterface({Public}, false, "C", [])]), true)
      && !ChangeMethods(hiddenUnit, reported).emit
  {
    var members := [Field({Private}, ["a"]), Field({}, ["b"])];
    var ctx := InClass(HasDefaultConstructor(members));
    assert StubMember(members[0], ctx, reported) == None;
    assert StubMember(members[1], ctx, reported) == None;
    StubMembersUnrolled(members, ctx, reported);
    var shown := ClassOrInterface({Public}, false, "C", members);
    assert StubType(shown, reported) == Some(ClassOrInterface({Public}, false, "C", []));
    assert StubTypes([shown], reported) == [ClassOrInterface({Public}, false, "C", [])];
    var hidden := ClassOrInterface({Final}, false, "C", members);
    assert forall t :: t in [hidden] ==> t == hidden;
  }

  /** The no-argument constructor is looked up before members are removed: a
      package-private `C()` that is itself dropped still stops `public C(Foo x)`
      from keeping its `super(x)`. */
  lemma DroppedDefaultStillCounts(reported: string -> string)
    ensures
      var hidden := Constructor({}, "C", [], []);
      var shown := Constructor({Public}, "C", [Param("Foo", "x")], [Invocation(SuperCall, None, [NameRef("x")])]);
      StubType(ClassOrInterface({Public}, false, "C", [hidden, shown]), reported)
      == Some(ClassOrInterface({Public}, false, "C", [Constructor({Public}, "C", [Param("Foo", "x")], [FailureStmt])]))
  {
    var hidden := Constructor({}, "C", [], []);
    var shown := Constructor({Public}, "C", [Param("Foo", "x")], [Invocation(SuperCall, None, [NameRef("x")])]);
    var members := [hidden, shown];
    assert HasDefaultConstructor(members) by {
      assert members[0] == hidden;
    }
    assert StubMember(hidden, InClass(true), reported) == None;
    assert StubMember(shown, InClass(true), reported)
        == Some(Constructor({Public}, "C", [Param("Foo", "x")], [FailureStmt]));
    StubMembersUnrolled(members, InClass(true), reported);
    assert StubMembers(members, InClass(true), reported)
        == [Constructor({Public}, "C", [Param("Foo", "x")], [FailureStmt])];
  }

  /** Java makes a type nested in an interface implicitly public, but the gate
      reads only the declared modifiers: without an explicit `public` the nested
      type is dropped. */
  lemma InterfaceNestedTypeNeedsExplicitPublic(reported: string -> string)
    ensures
      var nested := NestedType(ClassOrInterface({}, false, "Inner", []));
      var run := Method({}, "run", [], None);
      StubType(ClassOrInterface({Public}, true, "I", [run, nested]), reported)
      == Some(ClassOrInterface({Public}, true, "I", [run]))
  {
    var nested := NestedType(ClassOrInterface({}, false, "Inner", []));
    var run := Method({}, "run", [], None);
    assert StubMember(run, Passthrough, reported) == Some(run);
    assert StubMember(nested, Passthrough, reported) == None;
    StubMembersUnrolled([run, nested], Passthrough, reported);
    assert StubMembers([run, nested], Passthrough, reported) == [run];
  }

  /** Re-running the generator on its own output is not a no-op: the typed null
      `(Foo) null` of a kept invocation is a cast, not a simple name, so the
      second run turns it into a plain `null`. */
  lemma SecondRunDropsTypedNull(reported: string -> string)
    requires reported("x") == "Foo"
    ensures
      var params := [Param("Foo", "x")];
      var source := Constructor({Public}, "C", params, [Invocation(SuperCall, None, [NameRef("x")])]);
      var firstRun := Constructor({Public}, "C", params, [Invocation(SuperCall, None, [CastNull("Foo")]), FailureStmt]);
      var secondRun := Constructor({Public}, "C", params, [Invocation(SuperCall, None, [NullLit]), FailureStmt]);
      var unit := (ctor: Member) => CompilationUnit(None, [], [ClassOrInterface({Public}, false, "C", [ctor])]);
      && ChangeMethods(unit(source), reported).unit == unit(firstRun)
      && ChangeMethods(unit(firstRun), reported).unit == unit(secondRun)
      && unit(secondRun) != unit(firstRun)
  {
    var params := [Param("Foo", "x")];
    var ctor := Constructor({Public}, "C", params, [Invocation(SuperCall, None, [NameRef("x")])]);
    var ctor1 := Constructor({Public}, "C", params, [Invocation(SuperCall, None, [CastNull("Foo")]), FailureStmt]);
    var ctor2 := Constructor({Public}, "C", params, [Invocation(SuperCall, None, [NullLit]), FailureStmt]);
    var class0 := ClassOrInterface({Public}, false, "C", [ctor]);
    var class1 := ClassOrInterface({Public}, false, "C", [ctor1]);
    var class2 := ClassOrInterface({Public}, false, "C", [ctor2]);
    assert !HasDefaultConstructor([ctor]);
    assert !HasDefaultConstructor([ctor1]);
    assert SanitizeArgs([NameRef("x")], reported) == [CastNull("Foo")];
    assert SanitizeArgs([CastNull("Foo")], reported) == [NullLit];
    assert EraseConstructor(ctor, false, reported) == ctor1;
    assert EraseConstructor(ctor1, false, reported) == ctor2;
    assert StubMember(ctor, InClass(false), reported) == Some(ctor1);
    assert StubMember(ctor1, InClass(false), reported) == Some(ctor2);
    StubMembersUnrolled([ctor], InClass(false), reported);
    StubMembersUnrolled([ctor1], InClass(false), reported);
    assert StubMembers([ctor], InClass(false), reported) == [ctor1];
    assert StubMembers([ctor1], InClass(false), reported) == [ctor2];
    assert StubType(class0, reported) == Some(class1);
    assert StubType(class1, reported) == Some(class2);
    assert StubTypes([class0], reported) == [class1];
    assert StubTypes([class1], reported) == [class2];
    assert ctor1.block[0] != ctor2.block[0];
  }
}

=== FILE: seqs.dfy ===
/** Order-preserving selection from a sequence, the list operation behind every
    removal the stub generator performs (imports, class members, types). */
module Seqs {

  /** `sub` is obtained from `s` by deleting elements, the rest keeping their order.
      Greedy leftmost matching decides this exactly. */
  predicate IsSubsequence<T(==)>(sub: seq<T>, s: seq<T>)
    decreases |s|
  {
    if sub == [] then true
    else if s == [] then false
    else if sub[0] == s[0] then IsSubsequence(sub[1..], s[1..])
    else IsSubsequence(sub, s[1..])
  }

  /** The elements of `s` satisfying `keep`, in their original order. A subsequence
      whose multiplicities are those of the kept elements is unique, so the
      contract pins the result down completely. */
  function Filter<T(==,!new)>(s: seq<T>, keep: T -> bool): (r: seq<T>)
    ensures IsSubsequence(r, s)
    ensures forall x :: multiset(r)[x] == if keep(x) then multiset(s)[x] else 0
    ensures forall x :: x in r <==> x in s && keep(x)
    ensures |r| <= |s|
  {
    if s == [] then []
    else
      assert s == [s[0]] + s[1..];
      if keep(s[0]) then [s[0]] + Filter(s[1..], keep) else Filter(s[1..], keep)
  }

  /** Filtering a second time with the same test removes nothing more. */
  lemma {:induction false} FilterIdempotent<T(!new)>(s: seq<T>, keep: T -> bool)
    ensures Filter(Filter(s, keep), keep) == Filter(s, keep)
  {
    if s != [] {
      FilterIdempotent(s[1..], keep);
      if keep(s[0]) {
        var tail := Filter(s[1..], keep);
        assert ([s[0]] + tail)[1..] == tail;
      }
    }
  }

  /** A filter that rejects nothing is the identity. */
  lemma {:induction false} FilterKeepsAll<T(!new)>(s: seq<T>, keep: T -> bool)
    requires forall x :: x in s ==> keep(x)
    ensures Filter(s, keep) == s
  {
    if s != [] {
      assert keep(s[0]) by {
        assert s[0] in s;
      }
      assert forall x :: x in s[1..] ==> keep(x) by {
        forall x | x in s[1..] ensures keep(x) {
          assert x in s;
        }
      }
      FilterKeepsAll(s[1..], keep);
      calc {
        Filter(s, keep);
        [s[0]] + Filter(s[1..], keep);
        [s[0]] + s[1..];
        s;
      }
    }
  }
}

=== FILE: stub_form.dfy ===
/** The shape of a generated stub, and what a second or third run of the generator
    does to it. A run leaves every surviving class or interface public or protected
    and, inside class bodies, every kept member allowed by the table, every concrete
    method body the failure block and every concrete constructor body the failure
    block, possibly behind an invocation whose arguments are placeholders. Members
    of interface, enum and annotation bodies keep their bodies. A second run turns the
    typed placeholders `(T) null` into plain `null` — a cast is not a simple name —
    and from then on the generator changes nothing. */
module StubForm {
  import opened Syntax
  import opened Seqs
  import opened Imports
  import opened Policy
  import opened Erasure
  import opened Stubber

  /** Every argument is `null`, or, when `allowCast`, possibly a typed `null`. */
  predicate PlaceholderArgs(args: seq<Expr>, allowCast: bool) {
    forall k :: 0 <= k < |args| ==> args[k].NullLit? || (allowCast && args[k].CastNull?)
  }

  /** A constructor body as erasure leaves it: the failure block alone, or an
      explicit invocation with placeholder arguments followed by the failure
      statement, the latter only where the preservation rule allows it. */
  predicate ErasedConstructorBlock(c: Member, hasDefault: bool, allowCast: bool)
    requires c.Constructor?
  {
    || c.block == FailureBlock
    || (&& |c.block| == 2
        && c.block[0].Invocation?
        && c.block[1] == FailureStmt
        && (!hasDefault || |c.params| == 0)
        && PlaceholderArgs(c.block[0].args, allowCast))
  }

  /** A member of a generated class body. */
  predicate ClassMemberForm(m: Member, hasDefault: bool, allowCast: bool) {
    && !ShouldRemove(m)
    && (m.Method? && !IsAbstract(m) ==> m.body == Some(FailureBlock))
    && (m.Constructor? && !IsAbstract(m) ==> ErasedConstructorBlock(m, hasDefault, allowCast))
  }

  /** How the generator treats the body of a declaration. */
  function BodyContext(t: TypeDecl): (ctx: Context) {
    if t.ClassOrInterface? && !t.isInterface then InClass(HasDefaultConstructor(t.members))
    else Passthrough
  }

  predicate MemberForm(m: Member, ctx: Context, allowCast: bool)
    decreases m, 0
  {
    match m
    case NestedType(d) => TypeForm(d, allowCast)
    case _ => ctx.Passthrough? || ClassMemberForm(m, ctx.hasDefault, allowCast)
  }

  /** A generated declaration, at every depth of nesting. */
  predicate TypeForm(t: TypeDecl, allowCast: bool)
    decreases t, 1
  {
    && Survives(t)
    && forall m :: m in t.members ==> MemberForm(m, BodyContext(t), allowCast)
  }

  /** A generated compilation unit. */
  predicate UnitForm(u: CompilationUnit, allowCast: bool) {
    && (forall i :: i in u.imports ==> !IsDenied(i.name))
    && (forall t :: t in u.types ==> TypeForm(t, allowCast))
  }

  // ---------------------------------------------------------------------------
  // Where each output element comes from

  lemma {:induction false} StubMembersOrigin(members: seq<Member>, ctx: Context, reported: string -> string)
    ensures forall m' :: m' in StubMembers(members, ctx, reported) ==>
      exists m :: m in members && StubMember(m, ctx, reported) == Some(m')
  {
    if members != [] {
      var head := OptionToSeq(StubMember(members[0], ctx, reported));
      var rest := StubMembers(members[1..], ctx, reported);
      StubMembersOrigin(members[1..], ctx, reported);
      forall m' | m' in head + rest
        ensures exists m :: m in members && StubMember(m, ctx, reported) == Some(m')
      {
        if m' in head {
          assert members[0] in members;
        } else {
          var m :| m in members[1..] && StubMember(m, ctx, reported) == Some(m');
          assert m in members;
        }
      }
    }
  }

  lemma {:induction false} StubTypesOrigin(types: seq<TypeDecl>, reported: string -> string)
    ensures forall t' :: t' in StubTypes(types, reported) ==>
      exists t :: t in types && StubType(t, reported) == Some(t')
  {
    if types != [] {
      var head := OptionToSeq(StubType(types[0], reported));
      var rest := StubTypes(types[1..], reported);
      StubTypesOrigin(types[1..], reported);
      forall t' | t' in head + rest
        ensures exists t :: t in types && StubType(t, reported) == Some(t')
      {
        if t' in head {
          assert types[0] in types;
        } else {
          var t :| t in types[1..] && StubType(t, reported) == Some(t');
          assert t in types;
        }
      }
    }
  }

  /** A rewritten member is a constructor exactly when the original was, with the
      same parameters. */
  lemma StubMemberKeepsConstructors(m: Member, ctx: Context, reported: string -> string)
    requires StubMember(m, ctx, reported).Some?
    ensures StubMember(m, ctx, reported).value.Constructor? <==> m.Constructor?
    ensures m.Constructor? ==> StubMember(m, ctx, reported).value.params == m.params
  {
  }

  /** Removing members never creates a no-argument constructor. */
  lemma HasDefaultShrinks(members: seq<Member>, ctx: Context, reported: string -> string)
    ensures HasDefaultConstructor(StubMembers(members, ctx, reported)) ==> HasDefaultConstructor(members)
  {
    var out := StubMembers(members, ctx, reported);
    if HasDefaultConstructor(out) {
      var k :| 0 <= k < |out| && out[k].Constructor? && |out[k].params| == 0;
      StubMembersOrigin(members, ctx, reported);
      assert out[k] in out;
      var m :| m in members && StubMember(m, ctx, reported) == Some(out[k]);
      StubMemberKeepsConstructors(m, ctx, reported);
      var j :| 0 <= j < |members| && members[j] == m;
    }
  }

  // ---------------------------------------------------------------------------
  // One run: any input ends up in stub form. With `settled` the input is already
  // in stub form and the output has plain `null` placeholders only.

  lemma {:induction false} StubMemberFormGen(m: Member, ctx: Context, reported: string -> string, settled: bool)
    requires settled ==> MemberForm(m, ctx, true)
    ensures StubMember(m, ctx, reported).Some? ==> MemberForm(StubMember(m, ctx, reported).value, ctx, !settled)
    decreases m, 2
  {
    if m.NestedType? {
      StubTypeFormGen(m.decl, reported, settled);
    } else if ctx.InClass? && !ShouldRemove(m) && m.Constructor? && !IsAbstract(m) {
      var m' := EraseMember(m, ctx.hasDefault, reported);
      if |m'.block| == 2 {
        if settled {
          SanitizePlaceholders(m.block[0].args, reported);
        }
      } else {
        assert m'.block == FailureBlock;
      }
    }
  }

  lemma {:induction false} StubMembersFormGen(members: seq<Member>, ctx: Context, reported: string -> string, settled: bool)
    requires settled ==> forall m :: m in members ==> MemberForm(m, ctx, true)
    ensures forall m' :: m' in StubMembers(members, ctx, reported) ==> MemberForm(m', ctx, !settled)
    decreases members, 1
  {
    StubMembersOrigin(members, ctx, reported);
    forall m' | m' in StubMembers(members, ctx, reported)
      ensures MemberForm(m', ctx, !settled)
    {
      var m :| m in members && StubMember(m, ctx, reported) == Some(m');
      StubMemberFormGen(m, ctx, reported, settled);
    }
  }

  lemma {:induction false} StubTypeFormGen(t: TypeDecl, reported: string -> string, settled: bool)
    requires settled ==> TypeForm(t, true)
    ensures StubType(t, reported).Some? ==> TypeForm(StubType(t, reported).value, !settled)
    decreases t, 3
  {
    match StubType(t, reported)
    case None =>
    case Some(t') =>
      var ctx := BodyContext(t);
      assert t'.members == StubMembers(t.members, ctx, reported);
      StubMembersFormGen(t.members, ctx, reported, settled);
      if ctx.InClass? {
        HasDefaultShrinks(t.members, ctx, reported);
        assert BodyContext(t') == InClass(HasDefaultConstructor(t'.members));
        forall m' | m' in t'.members
          ensures MemberForm(m', BodyContext(t'), !settled)
        {
          assert MemberForm(m', ctx, !settled);
        }
      }
  }

  /** After one run, the whole unit is in stub form: no denied import is left, and
      at every depth every class or interface is public or protected and, in every
      class body, each kept member passes the removal table, each concrete method
      body is exactly the failure block, and each concrete constructor body is the
      failure block, preceded at most by an explicit invocation whose arguments are
      `null` or `(T) null` — and only where the preservation rule allows it. The
      members of interface, enum and annotation bodies are not constrained. */
  lemma StubOutputForm(cu: CompilationUnit, reported: string -> string)
    ensures UnitForm(ChangeMethods(cu, reported).unit, true)
  {
    var out := ChangeMethods(cu, reported).unit;
    StubTypesOrigin(cu.types, reported);
    forall t' | t' in out.types
      ensures TypeForm(t', true)
    {
      var t :| t in cu.types && StubType(t, reported) == Some(t');
      StubTypeFormGen(t, reported, false);
    }
  }

  /** A second run over a stub leaves only plain `null` placeholders. */
  lemma SecondRunSettles(u: CompilationUnit, reported: string -> string)
    requires UnitForm(u, true)
    ensures UnitForm(ChangeMethods(u, reported).unit, false)
  {
    var out := ChangeMethods(u, reported).unit;
    StubTypesOrigin(u.types, reported);
    forall t' | t' in out.types
      ensures TypeForm(t', false)
    {
      var t :| t in u.types && StubType(t, reported) == Some(t');
      StubTypeFormGen(t, reported, true);
    }
  }

  // ---------------------------------------------------------------------------
  // A settled stub is a fixed point.

  lemma {:induction false} SettledMemberFixed(m: Member, ctx: Context, reported: string -> string)
    requires MemberForm(m, ctx, false)
    ensures StubMember(m, ctx, reported) == Some(m)
    decreases m, 2
  {
    if m.NestedType? {
      SettledTypeFixed(m.decl, reported);
    } else if ctx.InClass? && m.Constructor? && !IsAbstract(m) && m.block != FailureBlock {
      var invocation := m.block[0];
      SanitizePlaceholders(invocation.args, reported);
      assert SanitizeArgs(invocation.args, reported) == invocation.args;
      assert m.block == [invocation] + FailureBlock;
    }
  }

  lemma {:induction false} SettledMembersFixed(members: seq<Member>, ctx: Context, reported: string -> string)
    requires forall m :: m in members ==> MemberForm(m, ctx, false)
    ensures StubMembers(members, ctx, reported) == members
    decreases members, 1
  {
    if members != [] {
      assert members[0] in members;
      SettledMemberFixed(members[0], ctx, reported);
      assert forall m :: m in members[1..] ==> m in members;
      SettledMembersFixed(members[1..], ctx, reported);
      assert members == [members[0]] + members[1..];
    }
  }

  lemma {:induction false} SettledTypeFixed(t: TypeDecl, reported: string -> string)
    requires TypeForm(t, false)
    ensures StubType(t, reported) == Some(t)
    decreases t, 3
  {
    SettledMembersFixed(t.members, BodyContext(t), reported);
  }

  lemma {:induction false} SettledTypesFixed(types: seq<TypeDecl>, reported: string -> string)
    requires forall t :: t in types ==> TypeForm(t, false)
    ensures StubTypes(types, reported) == types
  {
    if types != [] {
      assert types[0] in types;
      SettledTypeFixed(types[0], reported);
      assert forall t :: t in types[1..] ==> t in types;
      SettledTypesFixed(types[1..], reported);
      assert types == [types[0]] + types[1..];
    }
  }

  /** The generator leaves a settled stub exactly as it is. */
  lemma SettledUnitFixed(u: CompilationUnit, reported: string -> string)
    requires UnitForm(u, false)
    ensures ChangeMethods(u, reported).unit == u
  {
    FilterKeepsAll(u.imports, (i: Import) => !IsDenied(i.name));
    SettledTypesFixed(u.types, reported);
  }

  /** Re-stubbing is stable from the second run on: a third run reproduces the
      second run's unit and flag. */
  lemma StableAfterTwoRuns(cu: CompilationUnit, reported: string -> string)
    ensures var twice := ChangeMethods(ChangeMethods(cu, reported).unit, reported);
            ChangeMethods(twice.unit, reported) == twice
  {
    var once := ChangeMethods(cu, reported).unit;
    var twice := ChangeMethods(once, reported);
    StubOutputForm(cu, reported);
    SecondRunSettles(once, reported);
    SettledUnitFixed(twice.unit, reported);
  }
}

=== FILE: stub_projections.dfy ===
/** The one-pass member rewrite seen from two angles: what happens to the fields,
    methods and constructors of a body, and what happens to its nested types. */
module StubProjections {
  import opened Syntax
  import opened Seqs
  import opened Policy
  import opened Erasure
  import opened Stubber

  /** The members of a body that are not nested type declarations, in order. */
  function NonTypeMembers(members: seq<Member>): (r: seq<Member>) {
    if members == [] then []
    else (if members[0].NestedType? then [] else [members[0]]) + NonTypeMembers(members[1..])
  }

  /** The nested type declarations of a body, in order. */
  function NestedDecls(members: seq<Member>): (r: seq<TypeDecl>) {
    if members == [] then []
    else (if members[0].NestedType? then [members[0].decl] else []) + NestedDecls(members[1..])
  }

  /** Erasure applied to each member of a list. */
  function EraseAll(members: seq<Member>, hasDefault: bool, reported: string -> string): (r: seq<Member>)
    ensures |r| == |members|
  {
    if members == [] then []
    else [EraseMember(members[0], hasDefault, reported)] + EraseAll(members[1..], hasDefault, reported)
  }

  lemma {:induction false} NonTypeMembersAppend(a: seq<Member>, b: seq<Member>)
    ensures NonTypeMembers(a + b) == NonTypeMembers(a) + NonTypeMembers(b)
  {
    if a != [] {
      assert (a + b)[0] == a[0];
      assert (a + b)[1..] == a[1..] + b;
      NonTypeMembersAppend(a[1..], b);
    } else {
      assert a + b == b;
    }
  }

  lemma {:induction false} NestedDeclsAppend(a: seq<Member>, b: seq<Member>)
    ensures NestedDecls(a + b) == NestedDecls(a) + NestedDecls(b)
  {
    if a != [] {
      assert (a + b)[0] == a[0];
      assert (a + b)[1..] == a[1..] + b;
      NestedDeclsAppend(a[1..], b);
    } else {
      assert a + b == b;
    }
  }

  /** The members of a list that survive the member rule, in order. */
  function PassingMembers(members: seq<Member>, ctx: Context, reported: string -> string): (r: seq<Member>) {
    if members == [] then []
    else
      var head := if StubMember(members[0], ctx, reported).Some? then [members[0]] else [];
      head + PassingMembers(members[1..], ctx, reported)
  }

  /** Each member of a surviving list replaced by its rewrite. */
  function RewriteMembers(members: seq<Member>, ctx: Context, reported: string -> string): (r: seq<Member>)
    requires forall m :: m in members ==> StubMember(m, ctx, reported).Some?
    ensures |r| == |members|
    ensures forall k :: 0 <= k < |members| ==> StubMember(members[k], ctx, reported) == Some(r[k])
  {
    if members == [] then []
    else
      assert members[0] in members;
      [StubMember(members[0], ctx, reported).value] + RewriteMembers(members[1..], ctx, reported)
  }

  lemma {:induction false} PassingMembersIsFilter(members: seq<Member>, ctx: Context, reported: string -> string)
    ensures PassingMembers(members, ctx, reported) == Filter(members, KeepsMember(ctx, reported))
  {
    if members != [] {
      PassingMembersIsFilter(members[1..], ctx, reported);
    }
  }

  lemma {:induction false} StubMembersRewritesPassing(members: seq<Member>, ctx: Context, reported: string -> string)
    ensures forall m :: m in PassingMembers(members, ctx, reported) ==> StubMember(m, ctx, reported).Some?
    ensures StubMembers(members, ctx, reported)
         == RewriteMembers(PassingMembers(members, ctx, reported), ctx, reported)
  {
    if members != [] {
      var rest := PassingMembers(members[1..], ctx, reported);
      StubMembersRewritesPassing(members[1..], ctx, reported);
      if StubMember(members[0], ctx, reported).Some? {
        var passing := [members[0]] + rest;
        assert PassingMembers(members, ctx, reported) == passing;
        assert passing[0] == members[0] && passing[1..] == rest;
      } else {
        assert PassingMembers(members, ctx, reported) == rest;
      }
    }
  }

  /** The member pass as a gated map: its output lists the members that survive
      `StubMember`, in their original order, each replaced by its rewrite. Fields,
      methods, constructors and nested types stay interleaved as in the input. */
  lemma {:induction false} StubMembersGatedMap(members: seq<Member>, ctx: Context, reported: string -> string)
    ensures var kept := Filter(members, KeepsMember(ctx, reported));
      var r := StubMembers(members, ctx, reported);
      && |r| == |kept|
      && forall k :: 0 <= k < |kept| ==> StubMember(kept[k], ctx, reported) == Some(r[k])
  {
    PassingMembersIsFilter(members, ctx, reported);
    StubMembersRewritesPassing(members, ctx, reported);
  }

  /** The declarations of a list that pass the gate, in order. */
  function PassingTypes(types: seq<TypeDecl>): (r: seq<TypeDecl>) {
    if types == [] then []
    else (if Survives(types[0]) then [types[0]] else []) + PassingTypes(types[1..])
  }

  /** Each declaration of a passing list replaced by its rewrite. */
  function RewriteTypes(types: seq<TypeDecl>, reported: string -> string): (r: seq<TypeDecl>)
    requires forall t :: t in types ==> Survives(t)
    ensures |r| == |types|
    ensures forall k :: 0 <= k < |types| ==> StubType(types[k], reported) == Some(r[k])
  {
    if types == [] then []
    else
      assert types[0] in types;
      [StubType(types[0], reported).value] + RewriteTypes(types[1..], reported)
  }

  lemma {:induction false} PassingTypesIsFilter(types: seq<TypeDecl>)
    ensures PassingTypes(types) == Filter(types, Survives)
  {
    if types != [] {
      PassingTypesIsFilter(types[1..]);
    }
  }

  lemma {:induction false} StubTypesRewritesPassing(types: seq<TypeDecl>, reported: string -> string)
    ensures forall t :: t in PassingTypes(types) ==> Survives(t)
    ensures StubTypes(types, reported) == RewriteTypes(PassingTypes(types), reported)
  {
    if types != [] {
      var rest := PassingTypes(types[1..]);
      StubTypesRewritesPassing(types[1..], reported);
      if Survives(types[0]) {
        var passing := [types[0]] + rest;
        assert PassingTypes(types) == passing;
        assert passing[0] == types[0] && passing[1..] == rest;
      } else {
        assert PassingTypes(types) == rest;
      }
    }
  }

  /** The type-list pass as a gated map: its output lists the declarations that
      pass the gate, in their original order, each replaced by its rewrite. */
  lemma {:induction false} StubTypesGatedMap(types: seq<TypeDecl>, reported: string -> string)
    ensures var kept := Filter(types, Survives);
      var r := StubTypes(types, reported);
      && |r| == |kept|
      && forall k :: 0 <= k < |kept| ==> StubType(kept[k], reported) == Some(r[k])
  {
    PassingTypesIsFilter(types);
    StubTypesRewritesPassing(types, reported);
  }

  /** What one member contributes to the non-type members of the result. */
  lemma StubMemberNonType(m: Member, ctx: Context, reported: string -> string)
    ensures NonTypeMembers(OptionToSeq(StubMember(m, ctx, reported)))
         == if m.NestedType? then []
            else if ctx.Passthrough? then [m]
            else if ShouldRemove(m) then []
            else [EraseMember(m, ctx.hasDefault, reported)]
  {
    var head := OptionToSeq(StubMember(m, ctx, reported));
    if head != [] {
      assert head[1..] == [];
    }
  }

  /** The source handles a class body in two stages: it erases every member the
      table keeps, then removes the marked ones all at once. Seen on fields, methods
      and constructors, the one-pass rewrite is exactly that: the kept members, in
      order, each erased. */
  lemma {:induction false} ClassMembersTwoStage(members: seq<Member>, hasDefault: bool, reported: string -> string)
    ensures NonTypeMembers(StubMembers(members, InClass(hasDefault), reported))
         == EraseAll(Filter(NonTypeMembers(members), (m: Member) => !ShouldRemove(m)), hasDefault, reported)
  {
    if members != [] {
      var m := members[0];
      var ctx := InClass(hasDefault);
      var keep := (m: Member) => !ShouldRemove(m);
      var head := OptionToSeq(StubMember(m, ctx, reported));
      var rest := StubMembers(members[1..], ctx, reported);
      var tail := NonTypeMembers(members[1..]);
      var kept := Filter(tail, keep);
      calc {
        NonTypeMembers(StubMembers(members, ctx, reported));
        NonTypeMembers(head + rest);
        { NonTypeMembersAppend(head, rest); }
        NonTypeMembers(head) + NonTypeMembers(rest);
        { ClassMembersTwoStage(members[1..], hasDefault, reported); StubMemberNonType(m, ctx, reported); }
        (if m.NestedType? || ShouldRemove(m) then [] else [EraseMember(m, hasDefault, reported)])
          + EraseAll(kept, hasDefault, reported);
      }
      if m.NestedType? {
        assert NonTypeMembers(members) == [] + tail == tail;
      } else {
        var nonTypes := [m] + tail;
        assert NonTypeMembers(members) == nonTypes;
        assert nonTypes[0] == m && nonTypes[1..] == tail;
        if ShouldRemove(m) {
          assert Filter(nonTypes, keep) == kept;
        } else {
          var filtered := [m] + kept;
          assert Filter(nonTypes, keep) == filtered;
          assert filtered[0] == m && filtered[1..] == kept;
        }
      }
    }
  }

  /** Interfaces, enums and annotations: every member that is not a nested type is
      returned untouched and in order — nothing removed, no body rewritten. */
  lemma {:induction false} PassthroughKeepsMembers(members: seq<Member>, reported: string -> string)
    ensures NonTypeMembers(StubMembers(members, Passthrough, reported)) == NonTypeMembers(members)
  {
    if members != [] {
      var m := members[0];
      var head := OptionToSeq(StubMember(m, Passthrough, reported));
      var rest := StubMembers(members[1..], Passthrough, reported);
      var tail := NonTypeMembers(members[1..]);
      calc {
        NonTypeMembers(StubMembers(members, Passthrough, reported));
        NonTypeMembers(head + rest);
        { NonTypeMembersAppend(head, rest); }
        NonTypeMembers(head) + NonTypeMembers(rest);
        { PassthroughKeepsMembers(members[1..], reported); StubMemberNonType(m, Passthrough, reported); }
        (if m.NestedType? then [] else [m]) + tail;
      }
      if m.NestedType? {
        assert NonTypeMembers(members) == [] + tail == tail;
      } else {
        assert NonTypeMembers(members) == [m] + tail;
      }
    }
  }

  /** What one member contributes to the nested declarations of the result. */
  lemma StubMemberNestedDecls(m: Member, ctx: Context, reported: string -> string)
    ensures NestedDecls(OptionToSeq(StubMember(m, ctx, reported)))
         == if m.NestedType? then OptionToSeq(StubType(m.decl, reported)) else []
  {
    var head := OptionToSeq(StubMember(m, ctx, reported));
    if head != [] {
      assert head[1..] == [];
    }
  }

  /** Nested type declarations, in every kind of body, are treated exactly like the
      unit's top-level declarations: gated, and rewritten recursively when kept. */
  lemma {:induction false} NestedTypesLikeTopLevel(members: seq<Member>, ctx: Context, reported: string -> string)
    ensures NestedDecls(StubMembers(members, ctx, reported)) == StubTypes(NestedDecls(members), reported)
  {
    if members != [] {
      var m := members[0];
      var head := OptionToSeq(StubMember(m, ctx, reported));
      var rest := StubMembers(members[1..], ctx, reported);
      var tail := NestedDecls(members[1..]);
      calc {
        NestedDecls(StubMembers(members, ctx, reported));
        NestedDecls(head + rest);
        { NestedDeclsAppend(head, rest); }
        NestedDecls(head) + NestedDecls(rest);
        { NestedTypesLikeTopLevel(members[1..], ctx, reported); StubMemberNestedDecls(m, ctx, reported); }
        (if m.NestedType? then OptionToSeq(StubType(m.decl, reported)) else []) + StubTypes(tail, reported);
      }
      if m.NestedType? {
        var decls := [m.decl] + tail;
        assert NestedDecls(members) == decls;
        assert decls[0] == m.decl && decls[1..] == tail;
      } else {
        assert NestedDecls(members) == [] + tail == tail;
        assert [] + StubTypes(tail, reported) == StubTypes(tail, reported);
      }
    }
  }

  /** A visible interface keeps all of its own members and bodies unchanged. */
  lemma InterfacePassthrough(t: TypeDecl, reported: string -> string)
    requires t.ClassOrInterface? && t.isInterface && IsVisible(t.mods)
    ensures StubType(t, reported).Some?
    ensures NonTypeMembers(StubType(t, reported).value.members) == NonTypeMembers(t.members)
  {
    PassthroughKeepsMembers(t.members, reported);
  }

  /** A kept class, as a whole: its fields, methods and constructors are those the
      table keeps, in order, each erased with the no-argument test read on the
      class's own member list before anything is removed; its nested declarations
      are rewritten as a type list is. */
  lemma ClassBodyRewrite(t: TypeDecl, reported: string -> string)
    requires t.ClassOrInterface? && !t.isInterface && IsVisible(t.mods)
    ensures StubType(t, reported).Some?
    ensures NonTypeMembers(StubType(t, reported).value.members)
         == EraseAll(Filter(NonTypeMembers(t.members), (m: Member) => !ShouldRemove(m)),
                     HasDefaultConstructor(t.members), reported)
    ensures NestedDecls(StubType(t, reported).value.members) == StubTypes(NestedDecls(t.members), reported)
  {
    var ctx := InClass(HasDefaultConstructor(t.members));
    assert StubType(t, reported).value.members == StubMembers(t.members, ctx, reported);
    ClassMembersTwoStage(t.members, HasDefaultConstructor(t.members), reported);
    NestedTypesLikeTopLevel(t.members, ctx, reported);
  }
}

=== FILE: stubber.dfy ===
/** The tree transform `changeMethods`: one pass over a compilation unit that prunes
    imports, gates class/interface declarations on their visibility, filters and
    erases class members, and descends into nested type declarations. */
module Stubber {
  import opened Syntax
  import opened Imports
  import opened Policy
  import opened Erasure

  /** How the members of a type body are treated: left alone (interfaces, enums,
      annotations — only their nested types are visited) or filtered and erased
      (classes, knowing whether the class declares a no-argument constructor). */
  datatype Context = Passthrough | InClass(hasDefault: bool)

  /** A type declaration survives the gate: an enum or annotation always does, a
      class or interface only when it is public or protected. */
  predicate Survives(t: TypeDecl) {
    t.OtherType? || IsVisible(t.mods)
  }

  /** The class/interface visitor (and the default visit of enum and annotation
      declarations). A declaration is either dropped with everything nested in it,
      or kept with the same kind, modifiers and name and only its members rewritten. */
  function StubType(t: TypeDecl, reported: string -> string): (r: Option<TypeDecl>)
    ensures r.Some? <==> Survives(t)
    ensures r.Some? ==> r.value == WithMembers(t, r.value.members)
    decreases t, 2
  {
    match t
    case ClassOrInterface(mods, isInterface, _, members) =>
      if !IsVisible(mods) then None
      else if isInterface then Some(WithMembers(t, StubMembers(members, Passthrough, reported)))
      else Some(WithMembers(t, StubMembers(members, InClass(HasDefaultConstructor(members)), reported)))
    case OtherType(_, _, _, members) =>
      Some(WithMembers(t, StubMembers(members, Passthrough, reported)))
  }

  /** One member in its context: a nested type goes through the type visitor; in a
      class, a member the table removes is dropped and any other is erased; in any
      other body the member is kept as it is. */
  function StubMember(m: Member, ctx: Context, reported: string -> string): (r: Option<Member>)
    ensures m.NestedType? ==> (r.Some? <==> Survives(m.decl))
    ensures !m.NestedType? && ctx.Passthrough? ==> r == Some(m)
    ensures !m.NestedType? && ctx.InClass? ==> (r.None? <==> ShouldRemove(m))
    decreases m, 1
  {
    match m
    case NestedType(d) =>
      (match StubType(d, reported)
       case None => None
       case Some(d') => Some(NestedType(d')))
    case _ =>
      (match ctx
       case Passthrough => Some(m)
       case InClass(hasDefault) =>
         if ShouldRemove(m) then None else Some(EraseMember(m, hasDefault, reported)))
  }

  /** A member list, rewritten member by member; dropped members disappear and the
      survivors keep their relative order. */
  function StubMembers(members: seq<Member>, ctx: Context, reported: string -> string): (r: seq<Member>)
    ensures |r| <= |members|
    decreases members, 0
  {
    if members == [] then []
    else OptionToSeq(StubMember(members[0], ctx, reported)) + StubMembers(members[1..], ctx, reported)
  }

  /** The test the member pass applies to one member: whether it comes out of
      `StubMember` in this context. */
  function KeepsMember(ctx: Context, reported: string -> string): (keep: Member -> bool) {
    m => StubMember(m, ctx, reported).Some?
  }

  /** A list of type declarations, as the visitor rewrites the unit's type list:
      a declaration survives exactly when it passes the gate. */
  function StubTypes(types: seq<TypeDecl>, reported: string -> string): (r: seq<TypeDecl>)
    ensures |r| <= |types|
    ensures forall t :: t in r ==> Survives(t)
    ensures |r| > 0 <==> exists t :: t in types && Survives(t)
  {
    if types == [] then []
    else
      assert forall t :: t in types <==> t == types[0] || t in types[1..];
      OptionToSeq(StubType(types[0], reported)) + StubTypes(types[1..], reported)
  }

  /** The rewritten unit and the flag `changeMethods` returns: whether any type
      declaration is left, which is what decides that a stub file is written. */
  datatype Outcome = Outcome(unit: CompilationUnit, emit: bool)

  /** `changeMethods`. The package declaration is kept, imports are pruned and the
      type list is rewritten; the flag is raised exactly when some top-level
      declaration of the input passes the gate, however its members fare. */
  function ChangeMethods(cu: CompilationUnit, reported: string -> string): (r: Outcome)
    ensures r.unit.packageName == cu.packageName
    ensures r.unit.imports == PruneImports(cu.imports)
    ensures r.unit.types == StubTypes(cu.types, reported)
    ensures r.emit <==> |r.unit.types| > 0
    ensures r.emit <==> exists t :: t in cu.types && Survives(t)
  {
    var unit := CompilationUnit(cu.packageName, PruneImports(cu.imports), StubTypes(cu.types, reported));
    Outcome(unit, |unit.types| > 0)
  }
}

=== FILE: syntax.dfy ===
/** The part of a parsed Java compilation unit that the stub generator inspects or
    rewrites. Parts it never reads or changes (comments, annotations, type
    parameters, extends/implements clauses, return types, throws clauses, field
    initialisers, enum constants) are not represented. Statements other than
    explicit constructor invocations, expressions other than names, nulls, casts of
    null and string literals, and members other than fields, methods, constructors
    and nested types are kept as uninterpreted text that the transform copies. */
module Syntax {

  datatype Option<+T> = None | Some(value: T)

  /** The empty sequence or the one present value. */
  function OptionToSeq<T>(o: Option<T>): (r: seq<T>)
    ensures |r| <= 1
  {
    match o
    case None => []
    case Some(v) => [v]
  }

  /** The modifier keywords a declaration can carry, as the parser reports them. */
  datatype Modifier =
    | Public | Protected | Private | Abstract | Static | Final | Transient
    | Volatile | Synchronized | Native | Strictfp | Transitive | Default

  /** `import [static] name[.*];` — only `name` takes part in pruning. */
  datatype Import = Import(name: string, isStatic: bool, isAsterisk: bool)

  /** Expressions, distinguished only as far as argument sanitisation needs:
      a simple name, the two placeholders sanitisation produces, a string literal
      (the stub's failure message) and anything else. */
  datatype Expr =
    | NameRef(id: string)
    | NullLit
    | CastNull(typeName: string)
    | StringLit(text: string)
    | OtherExpr(text: string)

  datatype InvocationKind = ThisCall | SuperCall

  /** Statements: an explicit `this(...)`/`super(...)` constructor invocation (with
      its optional `outer.` qualifier), `throw new T(args)`, and anything else. */
  datatype Stmt =
    | Invocation(kind: InvocationKind, qualifier: Option<Expr>, args: seq<Expr>)
    | ThrowNew(exceptionType: string, exceptionArgs: seq<Expr>)
    | OtherStmt(text: string)

  datatype Param = Param(typeName: string, name: string)

  /** Members of a class, interface, enum or annotation body. `OtherMember` covers
      initializer blocks and annotation members. A method without a body (abstract,
      native, or an interface method) has `body == None`; a constructor always has a
      `block`. */
  datatype Member =
    | Field(mods: set<Modifier>, variables: seq<string>)
    | Method(mods: set<Modifier>, name: string, params: seq<Param>, body: Option<seq<Stmt>>)
    | Constructor(mods: set<Modifier>, name: string, params: seq<Param>, block: seq<Stmt>)
    | NestedType(decl: TypeDecl)
    | OtherMember(text: string)

  datatype OtherKind = EnumKind | AnnotationKind

  /** A class or interface declaration, or an enum/annotation declaration, which the
      transform never gates but still descends into. */
  datatype TypeDecl =
    | ClassOrInterface(mods: set<Modifier>, isInterface: bool, name: string, members: seq<Member>)
    | OtherType(kind: OtherKind, mods: set<Modifier>, name: string, members: seq<Member>)

  /** The same declaration with another member list. */
  function WithMembers(t: TypeDecl, members: seq<Member>): (r: TypeDecl)
    ensures r.members == members
  {
    match t
    case ClassOrInterface(mods, isInterface, name, _) => ClassOrInterface(mods, isInterface, name, members)
    case OtherType(kind, mods, name, _) => OtherType(kind, mods, name, members)
  }

  datatype CompilationUnit =
    CompilationUnit(packageName: Option<string>, imports: seq<Import>, types: seq<TypeDecl>)

  /** Declared as abstract: the parser's `isAbstract()` on methods and constructors. */
  predicate IsAbstract(m: Member)
    requires m.Method? || m.Constructor?
  {
    Abstract in m.mods
  }
}
